=== FILE: README.md ===
# API response diff: a Dafny model

This project models the decision logic of `diff_api_response.py`. The script
replays one list of request paths against a v1.0 and a v2.0 deployment of an
HTTP API and reports every path whose responses differ. The model covers:

- **JSON comparison** (`normalize_json`, `compare_responses`). A parsed JSON
  value is a `Json` tree whose objects keep their members in text order,
  duplicates included. `Normalize` is the canonical form that
  `json.dumps(..., sort_keys=True)` writes: every object becomes the dict
  Python builds from it, where the last duplicate key wins, with its keys
  sorted by code point. `SemEq` is an independent definition of semantic
  equality. Object key order does not matter in it, array order does, and
  scalars compare by type and value. The central lemma proves that two
  canonical forms are equal exactly when the values are `SemEq`.
- **Fetching** (`fetch_api`). The URL join is modelled as Python's
  `rstrip('/')`, one `/`, then `lstrip('/')`. curl's output is split into
  the body and the three status digits that `-w %{http_code}` appends. Every
  way the curl subprocess can end is classified as a success or as a
  transport failure.
- **The per-path verdict** (`main`). v1 is fetched first and v2 only when v1
  succeeded. The policy is then applied in the code's order: differing
  statuses, equal error statuses (400 or above), an absent body, and finally
  `compare_responses`.
- **The driver** (`main`). The path file's lines are stripped and blank
  ones dropped. The list of differing paths is built in file order.

The outside world enters only as parameters:
- `transport: string -> CurlRun` gives the curl result for each URL;
- `parse: string -> Option<Json>` is `json.loads`, where `None` means the
  text did not parse;
- `lines` are the lines of the `target_path` file;
- `Targets` holds the two base URLs.

Modules: `Wrappers` (Option), `Sequences` (order-preserving filtering), `KeyOrder` (Python's `str` order), `Members`
(dict semantics and sorted member lists), `JsonValue`, `Responses`, `Text`
(strip functions), `Url`, `Fetch`, `Verdicts`, `Driver`.

Three details of `fetch_api` that the model reproduces:
- The URL join removes every trailing `/` from the base and every leading
  `/` from the path.
- Any three ASCII digits are a status, from 000 to 999.
- The status is the last three characters of curl's output, and the body
  is everything before them.

## Model

| member | source | states |
|---|---|---|
| Members.LastIndex | 20251110_diff_api_response/diff_api_response.py:21-22 | The member whose value a parsed object keeps under a key is its last occurrence. None means the key does not occur. |
| Members.Build | 20251110_diff_api_response/diff_api_response.py:15 | The sorted member list has strictly increasing keys. Looking up any key gives the value of that key's last occurrence in the object. |
| Members.SortedUnique | 20251110_diff_api_response/diff_api_response.py:15 | Two key-sorted member lists that agree on every key are identical, so each dict has exactly one sorted serialisation. |
| JsonValue.Normalize | 20251110_diff_api_response/diff_api_response.py:13-15 | The canonical form keeps an array's length and element order, and writes an object as a member list sorted by key. Its full contract is in `NormalizeDecidesSemEq` (equal canonical forms iff semantic equality), `NormalizeIdempotent` and `NormalizePreservesMeaning`, and each object's sorted list is the `Members.Build` dict. |
| JsonValue.NormalizeDecidesSemEq | 20251110_diff_api_response/diff_api_response.py:13-23 | Canonical forms are equal if and only if the values are semantically equal: same key set and equal values per key for objects, element-wise equal for arrays, same type and value for scalars. |
| JsonValue.NormalizeIdempotent | 20251110_diff_api_response/diff_api_response.py:13-15 | Normalizing a canonical form gives it back unchanged. |
| JsonValue.NormalizePreservesMeaning | 20251110_diff_api_response/diff_api_response.py:13-15 | A value and its canonical form are semantically equal. |
| JsonValue.SemEqReflexive | 20251110_diff_api_response/diff_api_response.py:23 | Every parsed value is equal to itself under the comparison. |
| JsonValue.SemEqSymmetric | 20251110_diff_api_response/diff_api_response.py:23 | Semantic equality is symmetric. |
| JsonValue.SemEqTransitive | 20251110_diff_api_response/diff_api_response.py:23 | Semantic equality is transitive, so it is an equivalence relation like the string equality it models. |
| JsonValue.ReorderedMembersEqual | 20251110_diff_api_response/diff_api_response.py:13-23 | Two objects whose member lists are permutations of each other, with no repeated key, are semantically equal and have equal canonical forms. |
| JsonValue.SwappedElementsDiffer | 20251110_diff_api_response/diff_api_response.py:13-23 | Swapping two array elements that are not equal gives an array that is not equal to the original, and their canonical forms differ. |
| Responses.CompareResponses | 20251110_diff_api_response/diff_api_response.py:18-26 | True exactly when both texts parse and the parsed values are semantically equal. So a text that fails to parse never matches, not even an identical text. |
| Responses.CompareResponsesSymmetric | 20251110_diff_api_response/diff_api_response.py:18-26 | Swapping the v1 and v2 bodies does not change the result. |
| Responses.CompareResponsesReflexive | 20251110_diff_api_response/diff_api_response.py:18-26 | A body that parses always matches itself. |
| Responses.KeyOrderIgnored | 20251110_diff_api_response/diff_api_response.py:13-23 | Bodies parsing to `{"a":1,"b":2}` and `{"b":2,"a":1}` match. |
| Responses.ArrayOrderCounts | 20251110_diff_api_response/diff_api_response.py:13-23 | Bodies parsing to `{"items":[1,2]}` and `{"items":[2,1]}` do not match. |
| Text.LeadingRun | 20251110_diff_api_response/diff_api_response.py:35 | The count of removed leading characters covers only characters to drop, and the next character, if any, is one to keep (`lstrip`). |
| Text.TrailingRun | 20251110_diff_api_response/diff_api_response.py:35 | The count of removed trailing characters covers only characters to drop, and the character before them, if any, is one to keep (`rstrip`). |
| Text.Trim | 20251110_diff_api_response/diff_api_response.py:92 | `strip` returns the contiguous part of the text between two runs of dropped characters. It is empty exactly when every character is dropped, and otherwise begins and ends with a kept character. |
| Text.Strip | 20251110_diff_api_response/diff_api_response.py:92 | `str.strip()` never lengthens a line, and a non-empty result begins and ends with a non-whitespace character. `Text.Trim` with Python's whitespace set gives the full contract. |
| Text.TrimIdempotent | 20251110_diff_api_response/diff_api_response.py:92 | Stripping a stripped text changes nothing. |
| Url.JoinUrl | 20251110_diff_api_response/diff_api_response.py:35 | The URL is the base without its trailing slashes, then exactly one `/`, then the path without its leading slashes. The characters on either side of the seam are not `/`, so the seam never has a doubled slash. |
| Url.JoinUrlPlain | 20251110_diff_api_response/diff_api_response.py:35 | A base without a trailing slash and a path without a leading slash are joined as `base + "/" + path`. |
| Url.JoinUrlAbsorbsSlashes | 20251110_diff_api_response/diff_api_response.py:35 | An extra slash at the end of the base or at the start of the path gives the same URL. |
| Fetch.FetchApi | 20251110_diff_api_response/diff_api_response.py:29-77 | A fetched response comes from a curl run on the joined URL that exited with 0, and body then status reassembles that run's output. `Url.JoinUrl` and `Fetch.ReadOutcome` state the rest. |
| Fetch.ParseStatus | 20251110_diff_api_response/diff_api_response.py:53-59 | The last three characters give a status exactly when they are all digits. The status is below 1000 and is written back as those same three characters. |
| Fetch.StatusTextRoundTrip | 20251110_diff_api_response/diff_api_response.py:57 | Reading the three digits of any status below 1000 gives that status back. |
| Fetch.ReadOutcome | 20251110_diff_api_response/diff_api_response.py:51-77 | Success holds exactly when curl exited with 0, wrote at least 3 characters and the last three are digits. On success, body then status reassembles stdout exactly, and the body is absent exactly when stdout has length 3 (a present body is never empty). A failure with exit code 0 and at least 3 characters is the unreadable-status case. |
| Fetch.ReadRenderRoundTrip | 20251110_diff_api_response/diff_api_response.py:51-58 | Splitting what curl writes for a status and a non-empty or absent body gives back that status and body. |
| Verdicts.Judge | 20251110_diff_api_response/diff_api_response.py:122-160 | Unequal statuses give a mismatch whatever the bodies, even when both are errors. Equal statuses of 400 or above match without looking at the bodies. With equal statuses below 400, an absent body matches. A path is reported exactly when the statuses differ, or both bodies are present below 400 and not semantically equal JSON. |
| Verdicts.JudgeSymmetric | 20251110_diff_api_response/diff_api_response.py:122-160 | Swapping the v1 and v2 responses gives the same verdict. |
| Verdicts.ProcessPath | 20251110_diff_api_response/diff_api_response.py:109-160 | The v1 URL is always requested first. The v2 URL is requested only when v1 was fetched. A v1 or v2 transport failure skips the path with its own verdict, and a path reported as differing had both fetches succeed. |
| Sequences.FilterOrdered | 20251110_diff_api_response/diff_api_response.py:92 | A filtered list comprehension keeps the order in which it reads its input: the result is a subsequence of the input, here the stripped lines. The differing paths are selected from the path list in the same way. |
| Sequences.FilterCount | 20251110_diff_api_response/diff_api_response.py:92 | An element the condition accepts appears in the filtered list as many times as in the input, and a rejected one not at all, so repeated non-blank lines all stay in the path list. With `FilterOrdered` this fixes the filtered list completely. |
| Sequences.FilterExactly | 20251110_diff_api_response/diff_api_response.py:92 | An element is in the filtered list exactly when it is in the input and the condition accepts it. |
| Sequences.FilterEmpty | 20251110_diff_api_response/diff_api_response.py:92-94 | The filtered list is empty exactly when the condition accepts no element of the input. |
| Driver.LoadPaths | 20251110_diff_api_response/diff_api_response.py:92 | The path list is no longer than the file. `LoadPathsStripped`, `LoadPathsComplete` and `LoadPathsEmpty`, together with `Sequences.FilterOrdered` and `Sequences.FilterCount` on the stripped lines, fix it completely. |
| Driver.LoadPathsStripped | 20251110_diff_api_response/diff_api_response.py:92 | Every path is non-empty and already stripped. |
| Driver.LoadPathsComplete | 20251110_diff_api_response/diff_api_response.py:92 | The stripped text of every non-blank line is in the path list. |
| Driver.LoadPathsEmpty | 20251110_diff_api_response/diff_api_response.py:92-96 | The path list is empty (the fatal exit) exactly when every line is blank. |
| Driver.Flagged | 20251110_diff_api_response/diff_api_response.py:103-160 | The list of differing paths is no longer than the path list. `FlaggedExactly` and `FlaggedCount`, together with `Sequences.FilterOrdered`, fix it completely. |
| Driver.FlaggedExactly | 20251110_diff_api_response/diff_api_response.py:103-160 | A path is on the differing list if and only if it is one of the paths and its verdict is a status mismatch or a body difference. |
| Driver.FlaggedCount | 20251110_diff_api_response/diff_api_response.py:106-160 | A path that occurs several times in the path list is appended once per occurrence when its verdict is a difference, and never otherwise. |
| Driver.TransportFailureNeverFlagged | 20251110_diff_api_response/diff_api_response.py:111-125 | A path on the differing list was fetched successfully from both v1 and v2, so a transport failure never reports a path. |
| Driver.CompareAll | 20251110_diff_api_response/diff_api_response.py:92-160 | An empty path list gives no summary. Otherwise the total is the number of paths, and the loop, which adds at most one path per iteration, builds exactly the differing list `Flagged` defines. |

## Left out

- Running curl (`subprocess.run`), `--insecure`, and the 10 s and 15 s timeouts are process and network I/O. Each URL's curl result is the `transport` parameter, and a timeout, a missing curl binary or another launch error are `CurlRun` cases.
- Printing is not modelled, and the model assumes no print ever raises. This covers the progress lines, the stderr diagnostics (only their classification is kept, as `FailureReason`), the `indent=2` dumps, the 500-character truncation and the final summary text. In the source, a print can raise, for example `BrokenPipeError` on a closed stdout pipe or `UnicodeEncodeError` on a character the console cannot encode, and that changes the outcome:
  - The print at line 124 runs before the append at line 125, and the print at line 159 before the append at line 160. If either raises, the `except Exception` at lines 177-180 skips the path, and a path whose verdict is a difference is left off the list. The handler prints at line 178 itself. If the first print failed because stdout is closed or cannot encode the Japanese text, that print can raise too; the exception then leaves `main`, and the run ends with no summary. `Driver.FlaggedExactly`, `Driver.FlaggedCount` and `Driver.CompareAll` promise it is listed.
  - The prints at lines 101 and 107 are outside the per-path `try`. If one raises, the whole run ends with no summary, while `Driver.CompareAll` always finishes.
- Reading `target_path`, `Path.exists` and `sys.exit` are filesystem and process control. The file's lines are an input; the exit on an empty path list is `None` from `CompareAll`. Python's line splitting of the file is not modelled.
- The JSON text parser is the `parse` parameter. Numbers are integers only: Python's float semantics (`1` against `1.0`, NaN) are not modelled.
- JsonValue.Normalize: `normalize_json` returns a string, while the model returns a canonical `Json` tree. Comparing the trees stands for comparing the strings, because `json.dumps` writes distinct canonical trees as distinct strings. The string escaping itself is not modelled.
- Fetch.ParseStatus: accepts exactly three ASCII digits. Python's `int()` also accepts surrounding whitespace, a sign, an underscore between digits and non-ASCII digits; curl's `%{http_code}` always writes three ASCII digits.
- Responses.CompareResponses: the model has two outcomes for a body, parsed or not, while `compare_responses` has a third. Its `except` (line 24) catches only `json.JSONDecodeError`. Other errors from `json.loads` escape it: `RecursionError` on a deeply nested body, and `ValueError` on an integer literal of more than 4300 digits (Python 3.11 and later). The `except Exception` in `main` (lines 177-180) then skips the path, so it is neither listed nor matched. In the model, `parse` cannot raise: a body it rejects is a `BodiesDiffer` verdict.
- Driver.FlaggedExactly: the `transport` parameter gives the same curl result for a URL throughout a run. A path that occurs more than once is fetched again at each occurrence (lines 106-117), and a real server may answer differently each time. The model gives every occurrence of a path the same verdict, so `FlaggedExactly`, `FlaggedCount` and `TransportFailureNeverFlagged` describe a network that answers each URL identically for the whole run.
- Apart from the parse errors above, the `except Exception` around each path catches only errors raised by printing, whose effect is described above. The hard-coded base URLs are the `Targets` parameter.

=== FILE: driver.dfy ===
/** The driver in `main`: the path list read from the `target_path` file,
    and the list of paths whose responses differ, built path by path. */
module Driver {
  import opened Wrappers
  import opened Sequences
  import opened Text
  import opened JsonValue
  import opened Fetch
  import opened Verdicts

  /** Every line of `lines`, stripped. */
  function StripAll(lines: seq<string>): (r: seq<string>)
    ensures |r| == |lines| && forall i :: 0 <= i < |lines| ==> r[i] == Strip(lines[i])
  {
    seq(|lines|, i requires 0 <= i < |lines| => Strip(lines[i]))
  }

  /** A stripped line that is kept as a path. */
  predicate NonBlank(line: string)
  {
    line != []
  }

  /** The lines of the path file with surrounding whitespace stripped and
      blank lines dropped. */
  function LoadPaths(lines: seq<string>): (paths: seq<string>)
    ensures |paths| <= |lines|
  {
    Filter(StripAll(lines), NonBlank)
  }

  /** The path list holds only stripped, non-blank entries. */
  lemma LoadPathsStripped(lines: seq<string>, path: string)
    ensures path in LoadPaths(lines) ==> path != [] && Strip(path) == path
  {
    FilterExactly(StripAll(lines), NonBlank, path);
    if path in LoadPaths(lines) {
      var i :| 0 <= i < |lines| && StripAll(lines)[i] == path;
      TrimIdempotent(lines[i], IsSpace);
    }
  }

  /** Every non-blank line contributes its stripped text to the path list. */
  lemma LoadPathsComplete(lines: seq<string>, i: nat)
    requires i < |lines|
    ensures Strip(lines[i]) != [] ==> Strip(lines[i]) in LoadPaths(lines)
  {
    FilterExactly(StripAll(lines), NonBlank, Strip(lines[i]));
    assert StripAll(lines)[i] == Strip(lines[i]);
  }

  /** The path list is empty exactly when every line is blank. */
  lemma LoadPathsEmpty(lines: seq<string>)
    ensures LoadPaths(lines) == [] <==> forall i :: 0 <= i < |lines| ==> Strip(lines[i]) == []
  {
    FilterEmpty(StripAll(lines), NonBlank);
  }

  /** The path is put on the list of differences. */
  predicate Reported(targets: Targets, transport: string -> CurlRun,
                     parse: string -> Option<Json>, path: string)
  {
    ProcessPath(targets, transport, parse, path).verdict.Differs()
  }

  /** The paths of `paths` that are reported as differing, in order. */
  function Flagged(targets: Targets, transport: string -> CurlRun,
                   parse: string -> Option<Json>, paths: seq<string>): (found: seq<string>)
    ensures |found| <= |paths|
  {
    Filter(paths, path => Reported(targets, transport, parse, path))
  }

  /** Exactly the reported paths are flagged: a path is on the list if and
      only if it is one of the paths and its verdict is a difference. */
  lemma FlaggedExactly(targets: Targets, transport: string -> CurlRun,
                       parse: string -> Option<Json>, paths: seq<string>, path: string)
    ensures path in Flagged(targets, transport, parse, paths)
      <==> path in paths && Reported(targets, transport, parse, path)
  {
    FilterExactly(paths, path => Reported(targets, transport, parse, path), path);
  }

  /** A path that occurs several times in the path file is listed once for
      every occurrence when it is reported, and never otherwise. */
  lemma FlaggedCount(targets: Targets, transport: string -> CurlRun,
                     parse: string -> Option<Json>, paths: seq<string>, path: string)
    ensures multiset(Flagged(targets, transport, parse, paths))[path]
      == if Reported(targets, transport, parse, path) then multiset(paths)[path] else 0
  {
    FilterCount(paths, path => Reported(targets, transport, parse, path), path);
  }

  /** A path whose v1 or v2 fetch failed is never on the list of differences. */
  lemma TransportFailureNeverFlagged(targets: Targets, transport: string -> CurlRun,
                                     parse: string -> Option<Json>, paths: seq<string>, path: string)
    ensures path in Flagged(targets, transport, parse, paths) ==>
      && FetchApi(transport, targets.v1Base, path).Fetched?
      && FetchApi(transport, targets.v2Base, path).Fetched?
  {
    FlaggedExactly(targets, transport, parse, paths, path);
  }

  /** The summary printed at the end of a run. */
  datatype Summary = Summary(total: nat, differing: seq<string>)

  /** `main` from the path file onward: `None` is the exit on an empty path
      list; otherwise every path is processed once, in file order. */
  method CompareAll(targets: Targets, transport: string -> CurlRun,
                    parse: string -> Option<Json>, lines: seq<string>) returns (summary: Option<Summary>)
    ensures summary.None? <==> LoadPaths(lines) == []
    ensures summary.Some? ==>
      && summary.value.total == |LoadPaths(lines)|
      && summary.value.differing == Flagged(targets, transport, parse, LoadPaths(lines))
      && |summary.value.differing| <= summary.value.total
  {
    var paths := LoadPaths(lines);
    if |paths| == 0 {
      return None;
    }
    var found: seq<string> := [];
    var i := 0;
    while i < |paths|
      invariant 0 <= i <= |paths|
      invariant found == Flagged(targets, transport, parse, paths[..i])
      invariant |found| <= i
    {
      if Reported(targets, transport, parse, paths[i]) {
        found := found + [paths[i]];
      }
      assert paths[..i + 1][..i] == paths[..i];
      i := i + 1;
    }
    assert paths[..|paths|] == paths;
    return Some(Summary(|paths|, found));
  }
}

=== FILE: fetch.dfy ===
/** `fetch_api` after the curl process has run: turning what curl reported
    into a status code and a body, or into a transport failure.

    curl is invoked with `-w %{http_code}`, so on success it writes the
    response body followed by the three-digit status code. Running curl is
    outside the model: its result is the input `CurlRun`. */
module Fetch {
  import opened Wrappers
  import opened Url

  /** How the curl subprocess ended. */
  datatype CurlRun =
    | Exited(returnCode: int, stdout: string, stderr: string)
    | TimedOut                    // the subprocess timeout expired
    | CurlNotFound                // curl is not installed
    | LaunchFailed(message: string)  // any other exception from the subprocess call

  /** Why no status code was obtained; each reason has its own diagnostic. */
  datatype FailureReason =
    | RequestFailed(message: string)
    | StatusUnreadable
    | Timeout
    | ToolMissing
    | Crashed(message: string)

  /** `(status_code, data)` with `status_code` set, or `(None, None)`. */
  datatype FetchOutcome =
    | Fetched(status: nat, body: Option<string>)
    | TransportFailure(reason: FailureReason)

  /** The diagnostic used when curl fails without writing to stderr
      ("connection error"). */
  const ConnectionError: string := "\U{63A5}\U{7D9A}\U{30A8}\U{30E9}\U{30FC}"

  predicate IsDigit(c: char)
  {
    '0' <= c <= '9'
  }

  predicate AllDigits(s: string)
  {
    forall i :: 0 <= i < |s| ==> IsDigit(s[i])
  }

  function DigitChar(d: nat): (c: char)
    requires d < 10
    ensures IsDigit(c)
  {
    ('0' as int + d) as char
  }

  function DigitValue(c: char): (d: nat)
    requires IsDigit(c)
    ensures d < 10 && DigitChar(d) == c
  {
    c as int - '0' as int
  }

  /** The three characters curl writes for status `n`. */
  function StatusText(n: nat): (t: string)
    requires n < 1000
    ensures |t| == 3 && AllDigits(t)
  {
    [DigitChar(n / 100), DigitChar(n / 10 % 10), DigitChar(n % 10)]
  }

  lemma DigitsOfThree(a: nat, b: nat, c: nat)
    requires a < 10 && b < 10 && c < 10
    ensures var n := 100 * a + 10 * b + c;
      n < 1000 && n / 100 == a && n / 10 % 10 == b && n % 10 == c
  {
    var n := 100 * a + 10 * b + c;
    assert n == (10 * a + b) * 10 + c;
    assert n / 10 == 10 * a + b;
    assert n == a * 100 + (10 * b + c);
  }

  /** `int(status_code_str)` on the last three characters of the output. */
  function ParseStatus(code: string): (r: Option<nat>)
    requires |code| == 3
    ensures r.Some? <==> AllDigits(code)
    ensures r.Some? ==> r.value < 1000 && StatusText(r.value) == code
  {
    if AllDigits(code) then
      var a, b, c := DigitValue(code[0]), DigitValue(code[1]), DigitValue(code[2]);
      var n := 100 * a + 10 * b + c;
      DigitsOfThree(a, b, c);
      assert StatusText(n) == [DigitChar(a), DigitChar(b), DigitChar(c)];
      Some(n)
    else None
  }

  /** A status below 1000 is the number its three digits spell. */
  lemma StatusDigits(n: nat)
    requires n < 1000
    ensures n == 100 * (n / 100) + 10 * (n / 10 % 10) + n % 10
  {
    assert n == 10 * (n / 10) + n % 10;
    assert n / 10 == 10 * (n / 10 / 10) + n / 10 % 10;
    assert n / 10 / 10 == n / 100;
  }

  lemma StatusTextRoundTrip(n: nat)
    requires n < 1000
    ensures ParseStatus(StatusText(n)) == Some(n)
  {
    var t := StatusText(n);
    assert DigitValue(t[0]) == n / 100;
    assert DigitValue(t[1]) == n / 10 % 10;
    assert DigitValue(t[2]) == n % 10;
    StatusDigits(n);
  }

  /** An absent body reads as the empty text. */
  function BodyText(body: Option<string>): string
  {
    match body
    case None => ""
    case Some(text) => text
  }

  /** What curl writes for a response: the body, then the status digits. */
  function Render(status: nat, body: Option<string>): string
    requires status < 1000
  {
    BodyText(body) + StatusText(status)
  }

  /** The body/status split of `fetch_api`, with each failure classified. */
  function ReadOutcome(run: CurlRun): (r: FetchOutcome)
    ensures r.Fetched? <==>
      && run.Exited?
      && run.returnCode == 0
      && |run.stdout| >= 3
      && AllDigits(run.stdout[|run.stdout| - 3..])
    // a success splits the output into body and status, losing nothing
    ensures r.Fetched? ==> r.status < 1000 && Render(r.status, r.body) == run.stdout
    ensures r.Fetched? ==> (r.body.None? <==> |run.stdout| == 3)
    ensures r.Fetched? && r.body.Some? ==> r.body.value != ""
    ensures r.TransportFailure? && run.Exited? ==>
      (r.reason.StatusUnreadable? <==> run.returnCode == 0 && |run.stdout| >= 3)
  {
    match run
    case Exited(code, out, err) =>
      if code == 0 && |out| >= 3 then
        var data := out[..|out| - 3];
        match ParseStatus(out[|out| - 3..])
        case Some(status) =>
          assert out == data + out[|out| - 3..];
          Fetched(status, if data == "" then None else Some(data))
        case None => TransportFailure(StatusUnreadable)
      else
        TransportFailure(RequestFailed(if err != "" then err else ConnectionError))
    case TimedOut => TransportFailure(Timeout)
    case CurlNotFound => TransportFailure(ToolMissing)
    case LaunchFailed(message) => TransportFailure(Crashed(message))
  }

  /** Splitting what curl writes for a response gives that response back:
      the partner of the reassembly promised by `ReadOutcome`. */
  lemma ReadRenderRoundTrip(status: nat, body: Option<string>, stderr: string)
    requires status < 1000
    requires body != Some("")
    ensures ReadOutcome(Exited(0, Render(status, body), stderr)) == Fetched(status, body)
  {
    var out := Render(status, body);
    assert out[|out| - 3..] == StatusText(status);
    assert out[..|out| - 3] == BodyText(body);
    StatusTextRoundTrip(status);
  }

  /** `fetch_api(url, path)`, with the curl run for each URL supplied by
      `transport`. */
  function FetchApi(transport: string -> CurlRun, base: string, path: string): (r: FetchOutcome)
    ensures var run := transport(JoinUrl(base, path));
      r.Fetched? ==>
        && run.Exited? && run.returnCode == 0
        && r.status < 1000 && Render(r.status, r.body) == run.stdout
  {
    ReadOutcome(transport(JoinUrl(base, path)))
  }
}

=== FILE: json.dfy ===
/** A JSON value as Python's `json.loads` returns it, with integer numbers,
    and the canonical form that `json.dumps(..., sort_keys=True)` writes out. */
module JsonValue {
  import opened Wrappers
  import opened Members

  /** An object keeps its members in text order, repeated keys included. */
  datatype Json =
    | Null
    | Bool(b: bool)
    | Num(n: int)
    | Str(s: string)
    | Arr(items: seq<Json>)
    | Obj(members: seq<(string, Json)>)

  /** Semantic JSON equality, stated without any canonical form: arrays are
      compared position by position, objects key by key as the dict built from
      them sees each key (the last duplicate wins), scalars by type and value. */
  ghost predicate SemEq(a: Json, b: Json)
  {
    match (a, b)
    case (Null, Null) => true
    case (Bool(x), Bool(y)) => x == y
    case (Num(x), Num(y)) => x == y
    case (Str(x), Str(y)) => x == y
    case (Arr(xs), Arr(ys)) =>
      |xs| == |ys| && forall i :: 0 <= i < |xs| ==> SemEq(xs[i], ys[i])
    case (Obj(ms), Obj(ns)) =>
      forall k ::
        (match (LastIndex(ms, k), LastIndex(ns, k))
         case (None, None) => true
         case (Some(i), Some(j)) => SemEq(ms[i].1, ns[j].1)
         case _ => false)
    case _ => false
  }

  /** The canonical form of a value: the model of `normalize_json`. */
  function Normalize(j: Json): (r: Json)
    ensures j.Arr? ==> r.Arr? && |r.items| == |j.items|
    ensures j.Obj? ==> r.Obj? && Sorted(r.members)
  {
    match j
    case Arr(xs) => Arr(seq(|xs|, i requires 0 <= i < |xs| => Normalize(xs[i])))
    case Obj(ms) => Obj(Build(seq(|ms|, i requires 0 <= i < |ms| => (ms[i].0, Normalize(ms[i].1)))))
    case _ => j
  }

  /** Normalizing decides semantic equality: the canonical forms of two
      values coincide exactly when the values are semantically equal. */
  lemma {:induction false} NormalizeDecidesSemEq(a: Json, b: Json)
    ensures Normalize(a) == Normalize(b) <==> SemEq(a, b)
    decreases a, 1
  {
    match (a, b) {
      case (Arr(xs), Arr(ys)) => ArraysNormalizeAlike(xs, ys);
      case (Obj(ms), Obj(ns)) => ObjectsNormalizeAlike(ms, ns);
      case _ =>
    }
  }

  lemma {:induction false} ArraysNormalizeAlike(xs: seq<Json>, ys: seq<Json>)
    ensures Normalize(Arr(xs)) == Normalize(Arr(ys)) <==> SemEq(Arr(xs), Arr(ys))
    decreases Arr(xs), 0
  {
    forall i | 0 <= i < |xs| && i < |ys|
      ensures Normalize(xs[i]) == Normalize(ys[i]) <==> SemEq(xs[i], ys[i])
    {
      NormalizeDecidesSemEq(xs[i], ys[i]);
    }
    var nx, ny := Normalize(Arr(xs)).items, Normalize(Arr(ys)).items;
    assert forall i :: 0 <= i < |xs| ==> nx[i] == Normalize(xs[i]);
    assert forall i :: 0 <= i < |ys| ==> ny[i] == Normalize(ys[i]);
    if |xs| == |ys| && forall i :: 0 <= i < |xs| ==> SemEq(xs[i], ys[i]) {
      assert nx == ny;
    }
  }

  lemma {:induction false} ObjectsNormalizeAlike(ms: seq<(string, Json)>, ns: seq<(string, Json)>)
    ensures Normalize(Obj(ms)) == Normalize(Obj(ns)) <==> SemEq(Obj(ms), Obj(ns))
    decreases Obj(ms), 0
  {
    var cm := seq(|ms|, i requires 0 <= i < |ms| => (ms[i].0, Normalize(ms[i].1)));
    var cn := seq(|ns|, i requires 0 <= i < |ns| => (ns[i].0, Normalize(ns[i].1)));
    assert Normalize(Obj(ms)) == Obj(Build(cm));
    assert Normalize(Obj(ns)) == Obj(Build(cn));
    forall k
      ensures LastValue(cm, k) == LastValue(cn, k) <==>
        (match (LastIndex(ms, k), LastIndex(ns, k))
         case (None, None) => true
         case (Some(i), Some(j)) => SemEq(ms[i].1, ns[j].1)
         case _ => false)
    {
      LastIndexKeysOnly(cm, ms, k);
      LastIndexKeysOnly(cn, ns, k);
      match (LastIndex(ms, k), LastIndex(ns, k)) {
        case (Some(i), Some(j)) =>
          NormalizeDecidesSemEq(ms[i].1, ns[j].1);
        case _ =>
      }
    }
    if SemEq(Obj(ms), Obj(ns)) {
      SortedUnique(Build(cm), Build(cn));
    }
    if Build(cm) == Build(cn) {
      forall k
        ensures LastValue(cm, k) == LastValue(cn, k)
      {
        assert Find(Build(cm), k) == Find(Build(cn), k);
      }
    }
  }

  /** `normalize_json` is idempotent: a canonical form is its own canonical form. */
  lemma {:induction false} NormalizeIdempotent(j: Json)
    ensures Normalize(Normalize(j)) == Normalize(j)
    decreases j
  {
    match j {
      case Arr(xs) =>
        forall i | 0 <= i < |xs|
          ensures Normalize(Normalize(xs[i])) == Normalize(xs[i])
        {
          NormalizeIdempotent(xs[i]);
        }
        assert Normalize(Normalize(j)).items == Normalize(j).items;
      case Obj(ms) =>
        var cm := seq(|ms|, i requires 0 <= i < |ms| => (ms[i].0, Normalize(ms[i].1)));
        var s := Build(cm);
        assert Normalize(j) == Obj(s);
        var sm := seq(|s|, i requires 0 <= i < |s| => (s[i].0, Normalize(s[i].1)));
        assert Normalize(Obj(s)) == Obj(Build(sm));
        forall k
          ensures Find(Build(sm), k) == Find(s, k)
        {
          SortedFindIsLast(s, k);
          LastIndexKeysOnly(sm, s, k);
          LastIndexKeysOnly(cm, ms, k);
          match LastIndex(ms, k) {
            case Some(i) =>
              NormalizeIdempotent(ms[i].1);
            case None =>
          }
        }
        SortedUnique(Build(sm), s);
      case _ =>
    }
  }

  /** Normalizing never changes what a value means. */
  lemma NormalizePreservesMeaning(j: Json)
    ensures SemEq(j, Normalize(j))
  {
    NormalizeIdempotent(j);
    NormalizeDecidesSemEq(j, Normalize(j));
  }

  lemma SemEqReflexive(a: Json)
    ensures SemEq(a, a)
  {
    NormalizeDecidesSemEq(a, a);
  }

  lemma SemEqSymmetric(a: Json, b: Json)
    ensures SemEq(a, b) <==> SemEq(b, a)
  {
    NormalizeDecidesSemEq(a, b);
    NormalizeDecidesSemEq(b, a);
  }

  lemma SemEqTransitive(a: Json, b: Json, c: Json)
    requires SemEq(a, b) && SemEq(b, c)
    ensures SemEq(a, c)
  {
    NormalizeDecidesSemEq(a, b);
    NormalizeDecidesSemEq(b, c);
    NormalizeDecidesSemEq(a, c);
  }

  /** No key occurs twice among the members. */
  predicate DistinctKeys(ms: seq<(string, Json)>)
  {
    forall i, j :: 0 <= i < j < |ms| ==> ms[i].0 != ms[j].0
  }

  lemma KeyCarriedOver(ms: seq<(string, Json)>, ns: seq<(string, Json)>, k: string, j: nat)
    requires multiset(ms) == multiset(ns)
    requires j < |ns| && ns[j].0 == k
    ensures LastIndex(ms, k).Some?
  {
    assert ns[j] in multiset(ms);
    var p :| 0 <= p < |ms| && ms[p] == ns[j];
  }

  /** Object key order does not matter: listing the same members of an
      object in another order gives a semantically equal object. */
  lemma ReorderedMembersEqual(ms: seq<(string, Json)>, ns: seq<(string, Json)>)
    requires DistinctKeys(ms)
    requires multiset(ms) == multiset(ns)
    ensures SemEq(Obj(ms), Obj(ns))
    ensures Normalize(Obj(ms)) == Normalize(Obj(ns))
  {
    forall k
      ensures match (LastIndex(ms, k), LastIndex(ns, k))
              case (None, None) => true
              case (Some(i), Some(j)) => SemEq(ms[i].1, ns[j].1)
              case _ => false
    {
      if LastIndex(ns, k).Some? {
        KeyCarriedOver(ms, ns, k, LastIndex(ns, k).value);
      }
      if LastIndex(ms, k).Some? {
        KeyCarriedOver(ns, ms, k, LastIndex(ms, k).value);
        var i, j := LastIndex(ms, k).value, LastIndex(ns, k).value;
        assert ns[j] in multiset(ms);
        var p :| 0 <= p < |ms| && ms[p] == ns[j];
        assert p == i;
        SemEqReflexive(ms[i].1);
      }
    }
    NormalizeDecidesSemEq(Obj(ms), Obj(ns));
  }

  /** Array order matters: exchanging two elements that are not
      semantically equal gives an array that is not equal to the original. */
  lemma SwappedElementsDiffer(xs: seq<Json>, i: nat, j: nat)
    requires i < j < |xs|
    requires !SemEq(xs[i], xs[j])
    ensures !SemEq(Arr(xs), Arr(xs[i := xs[j]][j := xs[i]]))
    ensures Normalize(Arr(xs)) != Normalize(Arr(xs[i := xs[j]][j := xs[i]]))
  {
    var ys := xs[i := xs[j]][j := xs[i]];
    assert ys[i] == xs[j];
    NormalizeDecidesSemEq(Arr(xs), Arr(ys));
  }
}

=== FILE: keyorder.dfy ===
/** The order Python uses when `json.dumps(..., sort_keys=True)` sorts object
    keys: `<` on `str`, which compares code points left to right and puts a
    proper prefix first. */
module KeyOrder {

  /** `a < b` on Python strings. */
  predicate Below(a: string, b: string)
  {
    if |b| == 0 then false
    else if |a| == 0 then true
    else if a[0] != b[0] then a[0] < b[0]
    else Below(a[1..], b[1..])
  }

  lemma {:induction false} BelowIrreflexive(a: string)
    ensures !Below(a, a)
  {
    if |a| > 0 {
      BelowIrreflexive(a[1..]);
    }
  }

  lemma {:induction false} BelowTransitive(a: string, b: string, c: string)
    requires Below(a, b) && Below(b, c)
    ensures Below(a, c)
  {
    if |a| > 0 && a[0] == b[0] && b[0] == c[0] {
      BelowTransitive(a[1..], b[1..], c[1..]);
    }
  }

  /** Any two distinct keys are ordered one way or the other, so sorting
      leaves no tie to break. */
  lemma {:induction false} BelowTotal(a: string, b: string)
    ensures a == b || Below(a, b) || Below(b, a)
  {
    if |a| > 0 && |b| > 0 && a[0] == b[0] {
      BelowTotal(a[1..], b[1..]);
      if a[1..] == b[1..] {
        assert a == [a[0]] + a[1..] && b == [b[0]] + b[1..];
      }
    }
  }
}

=== FILE: members.dfy ===
/** Object members as Python's `dict` sees them, and the key-sorted member
    list that `json.dumps(..., sort_keys=True)` writes out.

    A parsed object arrives as its members in text order. When a key repeats,
    the dict keeps the value of its last occurrence. The canonical form holds
    each surviving key once, in strictly increasing key order. */
module Members {
  import opened Wrappers
  import opened KeyOrder

  type Entry<V> = (string, V)

  /** Position of the occurrence of `k` whose value the dict keeps: the last one. */
  function LastIndex<V>(ms: seq<Entry<V>>, k: string): (r: Option<nat>)
    ensures r.Some? ==> r.value < |ms| && ms[r.value].0 == k
    ensures r.Some? ==> forall l :: r.value < l < |ms| ==> ms[l].0 != k
    ensures r.None? ==> forall i :: 0 <= i < |ms| ==> ms[i].0 != k
  {
    if |ms| == 0 then None
    else if ms[|ms| - 1].0 == k then Some(|ms| - 1)
    else LastIndex(ms[..|ms| - 1], k)
  }

  /** `LastIndex` is the one position holding `k` with no `k` after it. */
  lemma LastIndexAt<V>(ms: seq<Entry<V>>, k: string, i: nat)
    requires i < |ms| && ms[i].0 == k
    requires forall l :: i < l < |ms| ==> ms[l].0 != k
    ensures LastIndex(ms, k) == Some(i)
  {
  }

  /** Only keys decide which occurrence is the last one, so rewriting the
      values of a member list leaves `LastIndex` unchanged. */
  lemma {:induction false} LastIndexKeysOnly<V, W>(s: seq<Entry<V>>, t: seq<Entry<W>>, k: string)
    requires |s| == |t|
    requires forall i :: 0 <= i < |s| ==> s[i].0 == t[i].0
    ensures LastIndex(s, k) == LastIndex(t, k)
  {
    if |s| > 0 {
      LastIndexKeysOnly(s[..|s| - 1], t[..|t| - 1], k);
    }
  }

  /** The value a dict built from `ms` holds under `k`. */
  function LastValue<V>(ms: seq<Entry<V>>, k: string): Option<V>
  {
    match LastIndex(ms, k)
    case None => None
    case Some(i) => Some(ms[i].1)
  }

  /** Lookup in a member list, first occurrence. */
  function Find<V>(s: seq<Entry<V>>, k: string): Option<V>
  {
    if |s| == 0 then None
    else if s[0].0 == k then Some(s[0].1)
    else Find(s[1..], k)
  }

  predicate Sorted<V>(s: seq<Entry<V>>)
  {
    forall i, j :: 0 <= i < j < |s| ==> Below(s[i].0, s[j].0)
  }

  /** Every key of `s` is strictly above `lo`. */
  predicate Above<V>(lo: string, s: seq<Entry<V>>)
  {
    forall i :: 0 <= i < |s| ==> Below(lo, s[i].0)
  }

  lemma PrependSorted<V>(e: Entry<V>, s: seq<Entry<V>>)
    requires Sorted(s) && |s| > 0 && Below(e.0, s[0].0)
    ensures Above(e.0, s)
    ensures Sorted([e] + s)
  {
    forall j | 0 < j < |s|
      ensures Below(e.0, s[j].0)
    {
      BelowTransitive(e.0, s[0].0, s[j].0);
    }
  }

  /** Puts `(k, v)` into a sorted list, replacing the value of an existing `k`:
      the dict assignment `d[k] = v`. */
  function Insert<V>(s: seq<Entry<V>>, k: string, v: V): (r: seq<Entry<V>>)
    ensures Sorted(s) ==> Sorted(r)
    ensures Find(r, k) == Some(v)
    ensures forall x :: x != k ==> Find(r, x) == Find(s, x)
    ensures forall lo :: Above(lo, s) && Below(lo, k) ==> Above(lo, r)
  {
    if |s| == 0 then [(k, v)]
    else if s[0].0 == k then [(k, v)] + s[1..]
    else if Below(k, s[0].0) then
      if Sorted(s) then PrependSorted((k, v), s); [(k, v)] + s
      else [(k, v)] + s
    else
      BelowTotal(k, s[0].0);
      var rest := Insert(s[1..], k, v);
      [s[0]] + rest
  }

  /** The members of the dict built from `ms`, sorted by key. */
  function Build<V>(ms: seq<Entry<V>>): (r: seq<Entry<V>>)
    ensures Sorted(r)
    ensures forall k :: Find(r, k) == LastValue(ms, k)
  {
    if |ms| == 0 then []
    else
      var prefix := ms[..|ms| - 1];
      var last := ms[|ms| - 1];
      var r := Insert(Build(prefix), last.0, last.1);
      assert forall k :: k != last.0 ==> LastValue(ms, k) == LastValue(prefix, k);
      r
  }

  lemma FindHead<V>(s: seq<Entry<V>>)
    requires |s| > 0
    ensures Find(s, s[0].0) == Some(s[0].1)
  {
  }

  lemma {:induction false} FindBelowAll<V>(s: seq<Entry<V>>, k: string)
    requires Above(k, s)
    ensures Find(s, k) == None
  {
    if |s| > 0 {
      BelowIrreflexive(k);
      FindBelowAll(s[1..], k);
    }
  }

  /** A sorted member list is determined by what it maps each key to: there
      is exactly one canonical form per dict. */
  lemma {:induction false} SortedUnique<V>(s: seq<Entry<V>>, t: seq<Entry<V>>)
    requires Sorted(s) && Sorted(t)
    requires forall k :: Find(s, k) == Find(t, k)
    ensures s == t
  {
    if |s| == 0 {
      if |t| > 0 {
        FindHead(t);
        assert false;
      }
    } else if |t| == 0 {
      FindHead(s);
      assert false;
    } else {
      var a, b := s[0].0, t[0].0;
      FindHead(s);
      FindHead(t);
      if Below(a, b) {
        PrependSorted(s[0], t);
        FindBelowAll(t, a);
        assert false;
      } else if Below(b, a) {
        PrependSorted(t[0], s);
        FindBelowAll(s, b);
        assert false;
      }
      BelowTotal(a, b);
      assert s[0] == t[0];
      forall k
        ensures Find(s[1..], k) == Find(t[1..], k)
      {
        if k == a {
          assert Above(a, s[1..]) && Above(a, t[1..]);
          FindBelowAll(s[1..], a);
          FindBelowAll(t[1..], a);
        } else {
          assert Find(s, k) == Find(t, k);
        }
      }
      SortedUnique(s[1..], t[1..]);
      assert s == [s[0]] + s[1..] && t == [t[0]] + t[1..];
    }
  }

  /** A sorted list holds each key once, so looking a key up from the front
      finds the same entry as the dict's last-occurrence rule. */
  lemma {:induction false} SortedFindIsLast<V>(s: seq<Entry<V>>, k: string)
    requires Sorted(s)
    ensures Find(s, k) == LastValue(s, k)
  {
    if |s| > 0 {
      if s[0].0 == k {
        BelowIrreflexive(k);
        forall l | 0 < l < |s|
          ensures s[l].0 != k
        {
          assert Below(s[0].0, s[l].0);
        }
        LastIndexAt(s, k, 0);
      } else {
        var rest := s[1..];
        SortedFindIsLast(rest, k);
        match LastIndex(rest, k) {
          case Some(i) =>
            LastIndexAt(s, k, i + 1);
          case None =>
            assert forall l :: 0 <= l < |s| ==> s[l].0 != k by {
              forall l | 0 < l < |s|
                ensures s[l].0 != k
              {
                assert s[l] == rest[l - 1];
              }
            }
        }
      }
    }
  }
}

=== FILE: responses.dfy ===
/** `compare_responses`: two response bodies match when both parse as JSON
    and their canonical forms coincide. JSON text parsing itself is a
    parameter, `parse`, which yields `None` for text that does not parse. */
module Responses {
  import opened Wrappers
  import opened Members
  import opened JsonValue

  function CompareResponses(parse: string -> Option<Json>, text1: string, text2: string): (same: bool)
    ensures same <==>
      && parse(text1).Some?
      && parse(text2).Some?
      && SemEq(parse(text1).value, parse(text2).value)
  {
    match (parse(text1), parse(text2))
    case (Some(a), Some(b)) =>
      NormalizeDecidesSemEq(a, b);
      Normalize(a) == Normalize(b)
    case _ => false
  }

  /** The comparison does not depend on which body is called v1. */
  lemma CompareResponsesSymmetric(parse: string -> Option<Json>, text1: string, text2: string)
    ensures CompareResponses(parse, text1, text2) == CompareResponses(parse, text2, text1)
  {
    if parse(text1).Some? && parse(text2).Some? {
      SemEqSymmetric(parse(text1).value, parse(text2).value);
    }
  }

  /** A body that parses is always equal to itself. */
  lemma CompareResponsesReflexive(parse: string -> Option<Json>, text: string)
    requires parse(text).Some?
    ensures CompareResponses(parse, text, text)
  {
    SemEqReflexive(parse(text).value);
  }

  /** `{"a":1,"b":2}` and `{"b":2,"a":1}` match. */
  lemma KeyOrderIgnored(parse: string -> Option<Json>, text1: string, text2: string)
    requires parse(text1) == Some(Obj([("a", Num(1)), ("b", Num(2))]))
    requires parse(text2) == Some(Obj([("b", Num(2)), ("a", Num(1))]))
    ensures CompareResponses(parse, text1, text2)
  {
    var ms: seq<(string, Json)> := [("a", Num(1)), ("b", Num(2))];
    var ns: seq<(string, Json)> := [("b", Num(2)), ("a", Num(1))];
    assert ns == [ms[1], ms[0]];
    calc {
      multiset(ns);
      multiset([ms[1]]) + multiset([ms[0]]);
      multiset([ms[0]]) + multiset([ms[1]]);
      { assert ms == [ms[0]] + [ms[1]]; }
      multiset(ms);
    }
    ReorderedMembersEqual(ms, ns);
  }

  /** `{"items":[1,2]}` and `{"items":[2,1]}` do not match. */
  lemma ArrayOrderCounts(parse: string -> Option<Json>, text1: string, text2: string)
    requires parse(text1) == Some(Obj([("items", Arr([Num(1), Num(2)]))]))
    requires parse(text2) == Some(Obj([("items", Arr([Num(2), Num(1)]))]))
    ensures !CompareResponses(parse, text1, text2)
  {
    var xs := [Num(1), Num(2)];
    SwappedElementsDiffer(xs, 0, 1);
    assert xs[0 := xs[1]][1 := xs[0]] == [Num(2), Num(1)];
    var ms := [("items", Arr(xs))];
    var ns := [("items", Arr([Num(2), Num(1)]))];
    LastIndexAt(ms, "items", 0);
    LastIndexAt(ns, "items", 0);
  }
}

=== FILE: sequences.dfy ===
/** Order-preserving selection from a sequence: the shape shared by the path
    list (non-blank lines) and the list of differing paths. */
module Sequences {
  /** `xs` is `ys` with some elements left out, the rest in their order. */
  ghost predicate Subsequence<T>(xs: seq<T>, ys: seq<T>)
  {
    if |xs| == 0 then true
    else if |ys| == 0 then false
    else
      || (xs[|xs| - 1] == ys[|ys| - 1] && Subsequence(xs[..|xs| - 1], ys[..|ys| - 1]))
      || Subsequence(xs, ys[..|ys| - 1])
  }

  lemma SubsequenceSkip<T>(xs: seq<T>, ys: seq<T>, y: T)
    requires Subsequence(xs, ys)
    ensures Subsequence(xs, ys + [y])
  {
    assert (ys + [y])[..|ys|] == ys;
  }

  lemma SubsequenceKeep<T>(xs: seq<T>, ys: seq<T>, y: T)
    requires Subsequence(xs, ys)
    ensures Subsequence(xs + [y], ys + [y])
  {
    assert (xs + [y])[..|xs|] == xs;
    assert (ys + [y])[..|ys|] == ys;
  }

  /** The elements of `xs` that `keep` accepts, in their order. */
  function Filter<T>(xs: seq<T>, keep: T -> bool): (r: seq<T>)
    ensures |r| <= |xs|
  {
    if |xs| == 0 then []
    else
      var earlier := Filter(xs[..|xs| - 1], keep);
      if keep(xs[|xs| - 1]) then earlier + [xs[|xs| - 1]] else earlier
  }

  /** The selection keeps the order of `xs`. */
  lemma {:induction false} FilterOrdered<T>(xs: seq<T>, keep: T -> bool)
    ensures Subsequence(Filter(xs, keep), xs)
  {
    if |xs| > 0 {
      var prefix := xs[..|xs| - 1];
      var x := xs[|xs| - 1];
      FilterOrdered(prefix, keep);
      assert xs == prefix + [x];
      if keep(x) {
        SubsequenceKeep(Filter(prefix, keep), prefix, x);
      } else {
        SubsequenceSkip(Filter(prefix, keep), prefix, x);
      }
    }
  }

  /** An accepted element is selected as many times as it occurs, and a
      rejected one never: repeated elements are all kept. */
  lemma {:induction false} FilterCount<T>(xs: seq<T>, keep: T -> bool, x: T)
    ensures multiset(Filter(xs, keep))[x] == if keep(x) then multiset(xs)[x] else 0
  {
    if |xs| > 0 {
      var prefix := xs[..|xs| - 1];
      FilterCount(prefix, keep, x);
      assert xs == prefix + [xs[|xs| - 1]];
    }
  }

  /** An element is selected exactly when it occurs and is accepted. */
  lemma {:induction false} FilterExactly<T>(xs: seq<T>, keep: T -> bool, x: T)
    ensures x in Filter(xs, keep) <==> x in xs && keep(x)
  {
    if |xs| > 0 {
      var prefix := xs[..|xs| - 1];
      FilterExactly(prefix, keep, x);
      assert xs == prefix + [xs[|xs| - 1]];
    }
  }

  /** Nothing is selected exactly when no element is accepted. */
  lemma {:induction false} FilterEmpty<T>(xs: seq<T>, keep: T -> bool)
    ensures Filter(xs, keep) == [] <==> forall i :: 0 <= i < |xs| ==> !keep(xs[i])
  {
    if |xs| > 0 {
      var prefix := xs[..|xs| - 1];
      FilterEmpty(prefix, keep);
      assert forall i :: 0 <= i < |prefix| ==> prefix[i] == xs[i];
    }
  }
}

=== FILE: text.dfy ===
/** Python's `str.lstrip`, `str.rstrip` and `str.strip`, each taking the set
    of characters to remove as a predicate. */
module Text {

  /** How many leading characters `drop` accepts in a row. */
  function LeadingRun(s: string, drop: char -> bool): (n: nat)
    ensures n <= |s|
    ensures forall i :: 0 <= i < n ==> drop(s[i])
    ensures n == |s| || !drop(s[n])
  {
    if |s| > 0 && drop(s[0]) then 1 + LeadingRun(s[1..], drop) else 0
  }

  /** How many trailing characters `drop` accepts in a row. */
  function TrailingRun(s: string, drop: char -> bool): (n: nat)
    ensures n <= |s|
    ensures forall i :: |s| - n <= i < |s| ==> drop(s[i])
    ensures n == |s| || !drop(s[|s| - n - 1])
  {
    if |s| > 0 && drop(s[|s| - 1]) then 1 + TrailingRun(s[..|s| - 1], drop) else 0
  }

  /** `lstrip`: the text after the leading run. */
  function TrimStart(s: string, drop: char -> bool): string
  {
    s[LeadingRun(s, drop)..]
  }

  /** `rstrip`: the text before the trailing run. */
  function TrimEnd(s: string, drop: char -> bool): string
  {
    s[..|s| - TrailingRun(s, drop)]
  }

  /** `strip`: the text between the leading and the trailing run. It is empty
      exactly when every character is one to drop, and otherwise starts and
      ends with a character that is kept. */
  function Trim(s: string, drop: char -> bool): (r: string)
    ensures var a := LeadingRun(s, drop);
      && a + |r| <= |s|
      && r == s[a..a + |r|]
      && (forall i :: a + |r| <= i < |s| ==> drop(s[i]))
    ensures r != [] ==> !drop(r[0]) && !drop(r[|r| - 1])
    ensures r == [] <==> forall i :: 0 <= i < |s| ==> drop(s[i])
  {
    var a := LeadingRun(s, drop);
    if a == |s| then []
    else s[a..|s| - TrailingRun(s, drop)]
  }

  /** Trimming a trimmed text changes nothing. */
  lemma TrimIdempotent(s: string, drop: char -> bool)
    ensures Trim(Trim(s, drop), drop) == Trim(s, drop)
  {
    var r := Trim(s, drop);
    if r != [] {
      assert LeadingRun(r, drop) == 0;
      assert TrailingRun(r, drop) == 0;
    }
  }

  /** The characters for which Python's `str.isspace()` holds, which are the
      characters `str.strip()` with no argument removes. */
  predicate IsSpace(c: char)
  {
    || '\t' <= c <= '\r'
    || '\U{1C}' <= c <= '\U{1F}'
    || c == ' '
    || c == '\U{85}'
    || c == '\U{A0}'
    || c == '\U{1680}'
    || '\U{2000}' <= c <= '\U{200A}'
    || c == '\U{2028}'
    || c == '\U{2029}'
    || c == '\U{202F}'
    || c == '\U{205F}'
    || c == '\U{3000}'
  }

  /** `str.strip()` with no argument. */
  function Strip(s: string): (r: string)
    ensures |r| <= |s|
    ensures r != [] ==> !IsSpace(r[0]) && !IsSpace(r[|r| - 1])
  {
    Trim(s, IsSpace)
  }
}

=== FILE: url.dfy ===
/** The request URL built in `fetch_api`: the base with all trailing slashes
    removed, one slash, then the path with all leading slashes removed. */
module Url {
  import opened Text

  predicate IsSlash(c: char)
  {
    c == '/'
  }

  function JoinUrl(base: string, path: string): (url: string)
    ensures var n, m := |base| - TrailingRun(base, IsSlash), |path| - LeadingRun(path, IsSlash);
      && |url| == n + 1 + m
      // the part before the seam is the base less its trailing slashes
      && url[..n] == base[..n]
      && (forall i :: n <= i < |base| ==> base[i] == '/')
      // exactly one slash at the seam
      && url[n] == '/'
      && (n > 0 ==> url[n - 1] != '/')
      && (m > 0 ==> url[n + 1] != '/')
      // the part after the seam is the path less its leading slashes
      && url[n + 1..] == path[|path| - m..]
      && (forall i :: 0 <= i < |path| - m ==> path[i] == '/')
  {
    TrimEnd(base, IsSlash) + "/" + TrimStart(path, IsSlash)
  }

  /** A base without a trailing slash and a path without a leading slash
      are joined unchanged. */
  lemma JoinUrlPlain(base: string, path: string)
    requires base == [] || base[|base| - 1] != '/'
    requires path == [] || path[0] != '/'
    ensures JoinUrl(base, path) == base + "/" + path
  {
  }

  /** Extra slashes on either side of the seam make no difference. */
  lemma JoinUrlAbsorbsSlashes(base: string, path: string)
    ensures JoinUrl(base + "/", path) == JoinUrl(base, path)
    ensures JoinUrl(base, "/" + path) == JoinUrl(base, path)
  {
    assert (base + "/")[..|base|] == base;
    assert ("/" + path)[1..] == path;
  }
}

=== FILE: verdicts.dfy ===
/** The per-path decision in `main`: fetch v1, then v2, then apply the
    comparison policy in its fixed order. */
module Verdicts {
  import opened Wrappers
  import opened JsonValue
  import opened Responses
  import opened Url
  import opened Fetch

  /** The outcome printed for one path. Only `StatusMismatch` and
      `BodiesDiffer` put the path on the list of differences. */
  datatype Verdict =
    | V1Failed          // v1 could not be fetched; v2 is not tried
    | V2Failed          // v2 could not be fetched
    | StatusMismatch    // the two status codes differ
    | BothErrorStatus   // equal status codes of 400 or more
    | NoBody            // equal status codes and an empty body on either side
    | BodiesMatch
    | BodiesDiffer
  {
    predicate Differs()
    {
      StatusMismatch? || BodiesDiffer?
    }
  }

  /** The two deployments being compared. */
  datatype Targets = Targets(v1Base: string, v2Base: string)

  /** The comparison policy for two fetched responses. */
  function Judge(parse: string -> Option<Json>, status1: nat, body1: Option<string>,
                 status2: nat, body2: Option<string>): (v: Verdict)
    ensures !v.V1Failed? && !v.V2Failed?
    // a status mismatch decides, whatever the bodies and even if both are errors
    ensures status1 != status2 ==> v == StatusMismatch
    // equal error statuses match without looking at the bodies
    ensures status1 == status2 >= 400 ==> v == BothErrorStatus
    ensures status1 == status2 < 400 && (body1.None? || body2.None?) ==> v == NoBody
    // the path is reported exactly when the statuses differ or two
    // non-error bodies are present and not semantically equal JSON
    ensures v.Differs() <==>
      || status1 != status2
      || (&& status1 < 400
          && body1.Some? && body2.Some?
          && !(&& parse(body1.value).Some?
               && parse(body2.value).Some?
               && SemEq(parse(body1.value).value, parse(body2.value).value)))
  {
    if status1 != status2 then StatusMismatch
    else if status1 >= 400 then BothErrorStatus
    else if body1.None? || body2.None? then NoBody
    else if CompareResponses(parse, body1.value, body2.value) then BodiesMatch
    else BodiesDiffer
  }

  /** Swapping the roles of v1 and v2 does not change the verdict. */
  lemma JudgeSymmetric(parse: string -> Option<Json>, status1: nat, body1: Option<string>,
                       status2: nat, body2: Option<string>)
    ensures Judge(parse, status1, body1, status2, body2) == Judge(parse, status2, body2, status1, body1)
  {
    if body1.Some? && body2.Some? {
      CompareResponsesSymmetric(parse, body1.value, body2.value);
    }
  }

  /** What happened for one path, with the URLs requested, in order. */
  datatype PathResult = PathResult(verdict: Verdict, requested: seq<string>)

  /** One iteration of the loop in `main`. */
  function ProcessPath(targets: Targets, transport: string -> CurlRun,
                       parse: string -> Option<Json>, path: string): (r: PathResult)
    ensures var url1, url2 := JoinUrl(targets.v1Base, path), JoinUrl(targets.v2Base, path);
      var out1 := FetchApi(transport, targets.v1Base, path);
      var out2 := FetchApi(transport, targets.v2Base, path);
      && 1 <= |r.requested| <= 2
      && r.requested[0] == url1
      && (|r.requested| == 2 ==> r.requested[1] == url2)
      // v2 is requested only when v1 was fetched
      && (r.verdict.V1Failed? <==> out1.TransportFailure?)
      && (r.verdict.V1Failed? <==> |r.requested| == 1)
      && (r.verdict.V2Failed? <==> out1.Fetched? && out2.TransportFailure?)
      // a path with a transport failure is never reported as differing
      && (r.verdict.Differs() ==> out1.Fetched? && out2.Fetched?)
      && (out1.Fetched? && out2.Fetched? ==>
            r.verdict == Judge(parse, out1.status, out1.body, out2.status, out2.body))
  {
    var url1 := JoinUrl(targets.v1Base, path);
    match FetchApi(transport, targets.v1Base, path)
    case TransportFailure(_) => PathResult(V1Failed, [url1])
    case Fetched(status1, body1) =>
      var url2 := JoinUrl(targets.v2Base, path);
      match FetchApi(transport, targets.v2Base, path)
      case TransportFailure(_) => PathResult(V2Failed, [url1, url2])
      case Fetched(status2, body2) =>
        PathResult(Judge(parse, status1, body1, status2, body2), [url1, url2])
  }
}

=== FILE: wrappers.dfy ===
/** The optional-value wrapper used throughout the model: Python's `None`
    versus a present value. */
module Wrappers {

  datatype Option<+T> = None | Some(value: T)
}
